=== FILE: README.md ===
# Conference API core, modelled in Dafny

This project models the request-validation and state-transition logic of
`ConferenceApi` in the scalable-conf conference service (`conference.py`):

- **Filters**: the filter parser `_formatFilters` and the ordering and
  integer-coercion part of `_getQuery`. A query is a plain record holding its
  sort order and its filters.
- **Registration**: the `_conferenceRegistration` transaction, one atomic
  step over a store of profiles and conferences. The module also covers runs
  of such requests and the capacity invariant they keep.
- **Wishlist**: `_wishlistAddition`, which is not transactional.
- **Builders**: the entity builders `_createConferenceObject`,
  `_updateConferenceObject` and `_createSessionObject`.
- **Announcements**: the selection predicate and message format of
  `_cacheAnnouncement`.

The datastore is a `Store` of three maps: profiles by user id, conferences by
key, and sessions by key. Keys are opaque strings. Dates are parsed
(year, month, day) triples ordered lexicographically. The caller is an
optional input; `None` means nobody is signed in.

An exception the source raises on purpose becomes an `Err` of the `Error`
datatype (`Unauthorized`, `NotFound`, `Forbidden`, `BadRequest`, `Conflict`).
An exception it raises by accident becomes `Internal` with its cause:

- `int()` rejects a filter value;
- a date is compared with a missing conference date;
- the organizer's profile is missing after an update;
- an organizer who is not the conference's creator updates it: the update's
  single-group transaction then reads a profile outside the conference's
  entity group, since the conference's key is a child of its creator's
  profile key.

Modules, one file each:

- `errors.dfy`: `Errors`, with `Error`, `Result` and `Option`.
- `seqs.dfy`: `Seqs`, with Python's `list.remove` and `str.join`.
- `models.dfy`: `Models`, with the entities, the store and the lazily created profile.
- `filters.dfy`: `Filters`.
- `registration.dfy`: `Registration`.
- `wishlist.dfy`: `Wishlist`.
- `builders.dfy`: `Builders`.
- `announcements.dfy`: `Announcements`.
- `capacity.dfy`: `Capacity`, which joins conference creation with registration.

Transactions:

- A failed registration request leaves the store exactly as it was. The
  cross-group transaction also rolls back the profile that
  `_getProfileFromUser` creates for a first-time caller.
- A failed wishlist request keeps that new profile, because
  `_wishlistAddition` is not a transaction.
- A failed update also leaves the store unchanged, since
  `_updateConferenceObject` is a transaction.

Three facts about the code that shape the model:

- `int()` on a `month` or `maxAttendees` filter value that is not an integer
  raises an uncaught `ValueError` (conference.py:323-325). The model gives
  `Internal(NotAnInteger)`.
- A second inequality field is always refused (conference.py:351-353). There
  is no other path for such queries.
- Session creation requires neither a date nor a start time
  (conference.py:602-613), and does not check that the conference exists.

## Model

| member | source | states |
|---|---|---|
| Filters.FormatFilters | conference.py:331-358 | The parse succeeds exactly when every field and operator is in the whitelists and no two inequality filters name different fields. On failure the first filter that makes the list inadmissible decides the reason: BadRequest(InvalidFilter) when its field or operator is unknown, BadRequest(MultipleInequalityFields) when it is a second inequality field. On success the output has the input's length and order, each filter is translated through FIELDS and OPERATORS, and the inequality field is None exactly when every operator is "=" and otherwise is the field of every inequality filter. |
| Filters.AdmissibleOrderIndependent | conference.py:346-355 | Whether a filter list is accepted does not depend on the order of its filters. |
| Filters.GetQuery | conference.py:311-329 | BadRequest exactly when the parser refuses. Internal(NotAnInteger) exactly when an accepted list holds a month or maxAttendees value that int() rejects. The ordering is [F, "name"] with inequality field F, or ["name"] without one. Each output filter keeps the translated field and operator. Integer fields carry the parsed integer, and every other value passes through unchanged. |
| Filters.CoerceValues | conference.py:323-328 | The conversion fails with Internal(NotAnInteger) exactly when some month or maxAttendees value is rejected by int(). Otherwise every filter keeps its field and operator, integer fields carry the parsed number, and every other value its text. |
| Filters.ParseShowInt | conference.py:323-325 | The integer coercion reads back every integer's decimal form. |
| Filters.ParseInt | conference.py:325 | The coercion succeeds exactly on an optional sign followed by at least one digit. A minus sign gives a value of zero or less, and no sign or a plus sign gives a non-negative value. An unsigned or plus-signed literal reads as its decimal digits, and a minus-signed one as their negation. |
| Models.EnsureProfile | conference.py:464-483 | After `_getProfileFromUser` the caller has a profile: the stored one if present, otherwise a new one built from the caller. Every profile stored before keeps its value, and conferences and sessions are unchanged. |
| Models.NewProfile | conference.py:474-479 | A new profile takes the caller's nickname and email and has empty attend and wishlist lists. |
| Registration.Register | conference.py:400-414 | Conflict(AlreadyRegistered) exactly when the key is in the caller's list. Conflict(NoSeatsAvailable) exactly when it is not there and seats <= 0. Otherwise the caller's profile is the old one with the key appended once, and the conference is the old one with one seat fewer. No other profile, conference or session changes. |
| Registration.Unregister | conference.py:416-426 | The result is true exactly when the key is in the caller's list. Then the caller's profile is the old one with the first occurrence removed, and the conference is the old one with one seat more; nothing else changes. Otherwise nothing changes but the lazily created profile. |
| Registration.ConferenceRegistration | conference.py:385-431 | No caller gives Unauthorized. For a signed-in caller, NotFound exactly when the conference is missing. Otherwise a register request has exactly the outcome of the Register step (its store or its Conflict), and an unregister request is exactly the Unregister step. Every error is one of the four listed, and a successful register answers true. |
| Registration.RegistrationWellFormed | conference.py:385-431 | A successful request keeps every attend and wishlist list duplicate-free and pointing at stored entities. |
| Registration.RegisterConservesSeats | conference.py:411-413 | A registration keeps seats plus registered profiles of every conference, and keeps seats non-negative. |
| Registration.UnregisterConservesSeats | conference.py:419-423 | An unregistration keeps seats plus registered profiles of every conference. |
| Registration.RegistrationConservesSeats | conference.py:385-431 | Any successful request keeps seats plus registered profiles of every conference and keeps seats non-negative. |
| Registration.RegisterThenUnregister | conference.py:400-426 | Registering and then unregistering gives back the original store, apart from the caller's lazily created profile. |
| Registration.RunConservesSeats | conference.py:385-431 | Over any series of requests a conference's seats plus registered profiles stays constant, seats stay non-negative, and registered profiles never exceed the starting total. |
| Wishlist.AddToWishlist | conference.py:706-715 | Conflict(AlreadyInWishlist) exactly when the session is already wishlisted. Otherwise only the caller's wishlist changes, gaining the key once. |
| Wishlist.RemoveFromWishlist | conference.py:717-726 | The result is true exactly when the session is wishlisted, and then only its first occurrence is removed. Otherwise only the lazily created profile differs. |
| Wishlist.WishlistAddition | conference.py:690-730 | No caller gives Unauthorized with no change. A missing session gives NotFound while keeping the new profile, and every error keeps it. The only errors are Unauthorized, NotFound and Conflict(AlreadyInWishlist). On a stored session an add succeeds exactly when the AddToWishlist step does, leaving its store, and a remove is exactly the RemoveFromWishlist step. A successful add answers true. |
| Wishlist.WishlistWellFormed | conference.py:690-730 | Every wishlist request keeps the store well formed. |
| Wishlist.AddThenRemove | conference.py:706-726 | Adding a session and then removing it gives back the original store, apart from the caller's lazily created profile. |
| Wishlist.AddAddRemoveRemove | conference.py:700-726 | Add, add again, remove, remove again answer true, a conflict, true and false, and end at the original store plus the caller's profile. |
| Builders.CreateConference | conference.py:151-200 | No caller gives Unauthorized, and an empty name gives BadRequest(NameRequired); otherwise the call succeeds. Each DEFAULTS field applies exactly when it was left out. The month comes from the start date, or is 0. A positive capacity opens that many seats. The store gains exactly the new conference under the organizer, who is recorded as its creator, the owner of its entity group. |
| Builders.WithDefaults | conference.py:167-171 | Fills city, maxAttendees, seatsAvailable and topics exactly when they are missing, with the DEFAULTS values ("Default City", 0, 0 and ["Default", "Topic"]), and changes no other field. |
| Builders.CreateEcho | conference.py:167-192 | The returned form is the request with its defaults and organizer filled in. It keeps the request's month and seat count. |
| Builders.CreateStartsAtCapacity | conference.py:183-185 | A new conference has no attendees. With a positive capacity N, seats plus attendees equal N. The store stays well formed. |
| Builders.CopyFields | conference.py:232-242 | A sent organizer id replaces the stored one, handing the conference to that user; without one the owner stays. An explicit month wins; otherwise a new start date sets the month; otherwise the month is kept. A sent capacity replaces the old one. A seat count is copied only when sent and is never derived from a new capacity. |
| Builders.CopyFieldsFieldwise | conference.py:232-242 | For name, description, topics, city, startDate and endDate, a field the form sends replaces the stored one and a field it leaves out keeps its stored value. The same holds for a capacity left out. |
| Builders.CopyFieldsIdentityAndIdempotent | conference.py:232-242 | An empty form changes nothing, and applying a form twice equals applying it once. |
| Builders.UpdateConference | conference.py:208-245 | Unauthorized, NotFound, and Forbidden exactly when the caller is not the organizer. For the organizer, Internal(CrossGroupRead) exactly when they are not the conference's creator: their profile lies outside the entity group of the single-group transaction, so the read fails and the transaction rolls back. For the creator-organizer, Internal(MissingProfile) exactly when they have no profile. Those five are the only errors. Success comes exactly when the caller is organizer and creator and has a profile; then only that conference changes, to the field copy. |
| Builders.UpdateAfterTransfer | conference.py:189-245 | Once an update hands the conference to another user, the old organizer is refused with Forbidden and the new one fails with Internal(CrossGroupRead). |
| Builders.UpdateKeepsSeats | conference.py:232-243 | An update that sends no seat count keeps every conference's seats and attendees, even when the capacity changes, and keeps the store well formed. |
| Builders.CreateSession | conference.py:572-630 | No caller gives Unauthorized, and a signed-in caller never gets it. Forbidden exactly when the caller is not the organizer. BadRequest(NameRequired) exactly when the organizer sends no name. For a named request from the organizer the date check alone decides: success exactly when it passes, and otherwise its error. A dated session is accepted exactly when its date lies within the conference's dates, and every stored dated session does. sessionType and location default only when missing. Name, highlights, speaker, duration, date and start time are stored as sent. The store gains exactly the new session. |
| Builders.CheckSessionDate | conference.py:608-613 | No date is always accepted. A date is accepted exactly when it lies within both conference dates, and with both dates set one outside them gives BadRequest(OutsideConferenceDates). Internal(DateComparedWithNone) comes exactly when a date is sent and the start date is missing, or the date is not before the start and the end date is missing. A BadRequest names a date before the start or after the end. |
| Builders.CreateSessionWellFormed | conference.py:572-630 | Creating a session keeps the store well formed and leaves profiles and conferences untouched. |
| Announcements.NearlySoldOutNames | conference.py:524-527 | Selects the name of every conference with 0 < seats <= 5, and only those names. |
| Announcements.NearlySoldOutNamesAppend | conference.py:524-535 | The selection keeps the query's order and repetitions: the names selected from two runs of conferences are the names from the first run followed by those from the second. |
| Announcements.Announcement | conference.py:529-543 | The text is empty exactly when no conference is nearly sold out. Otherwise it is the fixed header, a space, and then nothing but the selected names joined by ", ". |
| Announcements.AnnouncementNamesEvery | conference.py:532-535 | The announcement text contains the name of every nearly sold-out conference. |
| Capacity.NeverOversold | conference.py:183-185 | After a conference is created with capacity N > 0, any series of registration requests keeps its seats plus registered profiles at N, its seats at zero or more, and its registered profiles at N or fewer. |
| Capacity.TwoSeatScenario | conference.py:400-426 | From a conference with two seats that none of A, B and C attends: A and B register, C is refused for lack of seats, A unregisters, and C then registers, with the seat count at each step. |
| Seqs.RemoveFirstOfAppended | conference.py:412-422 | Removing a key just appended to a list that lacked it gives back the list. |
| Seqs.RemoveFirstContents | conference.py:422 | `list.remove` drops exactly one copy of the element and keeps every other one. |
| Seqs.RemoveFirstPositions | conference.py:422 | After `list.remove`, the elements before the first occurrence keep their places and the ones after it move up by one. |
| Seqs.RemoveFirstNoDuplicates | conference.py:723 | Removing from a duplicate-free list leaves it duplicate-free and holding exactly the other elements. |
| Seqs.JoinContainsParts | conference.py:535 | `str.join` output contains every joined part. |
| Seqs.Join | conference.py:535 | `str.join` of no parts is empty, and of one part is that part. Otherwise the output starts with the first part. |
| Seqs.JoinAppend | conference.py:535 | Joining one more part appends the separator and that part. |

## Left out

- The Endpoints and ProtoRPC plumbing: the request message classes, the decorators and the reflection-based `_copy*ToForm` copiers.
- The ndb datastore: `get`, `put`, `allocate_ids` and urlsafe keys are replaced by maps and opaque keys. The allocated conference or session key is a parameter, required to be fresh.
- Transaction retries and concurrency. Each transactional method is one atomic step.
- memcache and the task queue: the confirmation e-mail task, and storing or deleting the announcement.
- `strptime` parsing of dates and times, including the 10-character truncation on creation. Dates and times arrive parsed.
- Authentication and `getUserId`: the caller is an optional input.
- The getters and list endpoints (`getConference`, `queryConferences`, `getConferencesCreated`, `getConferencesToAttend`, `getConferenceSessions`, `getSessionInWishlist`, `querySessions`), `_getSessionQuery`, `getConferenceSessionByType` and `getSessionsBySpeaker`. They only read the store or forward values to it.
- Profile editing (`_doProfile`, `saveProfile`). It is outside the registration and builder logic; only the lazy creation in `_getProfileFromUser` is modelled.
- The datastore query the announcement is computed from. The model takes the fetched conferences as a sequence in query order.
- `main.py`: the e-mail handler is I/O, and the cron handler delegates in one line.
- `models.py` is not part of this model. The form field lists follow the fields `conference.py` reads.
- Filters.ParseInt: accepts an optional sign followed by ASCII digits. It does not model the surrounding whitespace or the non-ASCII digits that Python's `int()` also accepts.
- Builders.CopyFields: ProtoRPC reports the form fields in an order the source does not fix. The model copies `startDate` before an explicit `month`, so an explicit month wins.
- Builders.CreateSession: the conference's existence is a precondition, because the source reads `conf.organizerUserId` without checking for a missing conference.
- Builders.CreateSession: the session's start time is stored as sent, and its parsing is not modelled.
- Wishlist.WishlistAddition: the profile always carries a wishlist list, so the source's `hasattr` guard is always true.
- Registration.ConferenceRegistration: the source only checks that the key names some stored entity, of any kind. A session's key sent as a conference key would raise at the seat check. The model keeps one map per kind, so it answers NotFound for a key that is not a conference.
- Wishlist.WishlistAddition: a conference's key sent as a session key passes the source's existence check and is added to the wishlist. The model answers NotFound for any key that is not a session, because it keeps one map per kind.

=== FILE: announcements.dfy ===
/** The announcement text `_cacheAnnouncement` computes from the conferences
    that are nearly sold out. Only the selection and the formatting are
    modelled; storing the text in (or deleting it from) the cache is not. */
module Announcements {
  import opened Seqs
  import opened Models

  const ANNOUNCEMENT_HEADER := "Last chance to attend! The following conferences are nearly sold out:"

  /** The datastore query's condition: some seats left, but at most five. */
  predicate NearlySoldOut(c: Conference) {
    0 < c.seatsAvailable <= 5
  }

  /** The names of the nearly sold out conferences, in the order given. */
  function NearlySoldOutNames(confs: seq<Conference>): (names: seq<string>)
    ensures |names| <= |confs|
    ensures forall c :: c in confs && NearlySoldOut(c) ==> c.name in names
    ensures forall n :: n in names ==> exists c :: c in confs && NearlySoldOut(c) && c.name == n
  {
    if |confs| == 0 then []
    else
      var rest := NearlySoldOutNames(confs[1..]);
      assert forall c :: c in confs[1..] ==> c in confs;
      assert forall c :: c in confs ==> c == confs[0] || c in confs[1..];
      if NearlySoldOut(confs[0]) then [confs[0].name] + rest else rest
  }

  /** The selection keeps the query's order and repetitions: selecting from
      two runs of conferences one after the other is selecting from each. */
  lemma {:induction false} NearlySoldOutNamesAppend(a: seq<Conference>, b: seq<Conference>)
    ensures NearlySoldOutNames(a + b) == NearlySoldOutNames(a) + NearlySoldOutNames(b)
    decreases |a|
  {
    if |a| > 0 {
      assert (a + b)[1..] == a[1..] + b;
      NearlySoldOutNamesAppend(a[1..], b);
    } else {
      assert a + b == b;
    }
  }

  /** `_cacheAnnouncement`'s text for the conferences the query returns, in
      that order: the header and the comma-separated names, or the empty
      string when no conference is nearly sold out. */
  function Announcement(confs: seq<Conference>): (text: string)
    ensures text == "" <==> forall c :: c in confs ==> !NearlySoldOut(c)
    ensures text != "" ==>
      && |text| > |ANNOUNCEMENT_HEADER|
      && text[..|ANNOUNCEMENT_HEADER| + 1] == ANNOUNCEMENT_HEADER + " "
      // after the header comes nothing but the selected names, comma-separated
      && text[|ANNOUNCEMENT_HEADER| + 1..] == Join(", ", NearlySoldOutNames(confs))
  {
    var names := NearlySoldOutNames(confs);
    assert |names| > 0 ==> names[0] in names;
    if |names| > 0 then
      ANNOUNCEMENT_HEADER + " " + Join(", ", names)
    else
      ""
  }

  /** Every nearly sold out conference is named in the announcement. */
  lemma AnnouncementNamesEvery(confs: seq<Conference>, c: Conference)
    requires c in confs && NearlySoldOut(c)
    ensures Occurs(c.name, Announcement(confs))
  {
    var names := NearlySoldOutNames(confs);
    var k :| 0 <= k < |names| && names[k] == c.name;
    JoinContainsParts(", ", names, k);
    OccursAfterPrefix(c.name, ANNOUNCEMENT_HEADER + " ", Join(", ", names));
  }
}

=== FILE: builders.dfy ===
/** Building conferences and sessions from inbound request forms.

    A form field that the client left out is `None` (or, for the repeated
    `topics` field, the empty list); dates and times arrive already parsed. */
module Builders {
  import opened Errors
  import opened Models

  // DEFAULTS and SESSION_DEFAULTS of conference.py
  const DEFAULT_CITY := "Default City"
  const DEFAULT_MAX_ATTENDEES := 0
  const DEFAULT_SEATS_AVAILABLE := 0
  const DEFAULT_TOPICS := ["Default", "Topic"]
  const DEFAULT_SESSION_TYPE := "Presentation"
  const DEFAULT_LOCATION := "default location"

  /** The conference fields a client may send. */
  datatype ConferenceForm = ConferenceForm(
    name: Option<string>,
    description: Option<string>,
    organizerUserId: Option<string>,
    topics: seq<string>,
    city: Option<string>,
    startDate: Option<Date>,
    month: Option<int>,
    maxAttendees: Option<int>,
    seatsAvailable: Option<int>,
    endDate: Option<Date>)

  /** The session fields a client may send. */
  datatype SessionForm = SessionForm(
    name: Option<string>,
    highlights: Option<string>,
    speaker: Option<string>,
    duration: Option<int>,
    sessionType: Option<string>,
    date: Option<Date>,
    startTime: Option<Time>,
    location: Option<string>)

  /** Python truthiness of an optional string: present and not empty. */
  predicate Filled(s: Option<string>) {
    s.Some? && s.value != ""
  }

  /** The outcome of creating a conference: the new store, the stored
      conference and the request form as it is echoed back. */
  datatype Created = Created(store: Store, conference: Conference, echo: ConferenceForm)

  /** `_createConferenceObject`; `key` is the identifier the datastore
      allocates under the organizer's profile, fresh by construction. */
  function CreateConference(s: Store, caller: Option<Caller>, form: ConferenceForm, key: ConfKey): (r: Result<Created>)
    requires key !in s.conferences
    ensures caller.None? ==> r == Err(Unauthorized)
    ensures caller.Some? && !Filled(form.name) ==> r == Err(BadRequest(NameRequired))
    ensures r.Ok? <==> caller.Some? && Filled(form.name)
    ensures r.Ok? ==>
      var conf := r.value.conference;
      && r.value.store == s.(conferences := s.conferences[key := conf])
      && conf.name == form.name.value
      && conf.creatorUserId == caller.value.userId
      && conf.organizerUserId == caller.value.userId
      && conf.description == form.description
      && conf.startDate == form.startDate && conf.endDate == form.endDate
      // every default applies exactly when its field was left out
      && (form.city.None? ==> conf.city == DEFAULT_CITY)
      && (form.city.Some? ==> conf.city == form.city.value)
      && (form.topics == [] ==> conf.topics == DEFAULT_TOPICS)
      && (form.topics != [] ==> conf.topics == form.topics)
      && (form.maxAttendees.None? ==> conf.maxAttendees == DEFAULT_MAX_ATTENDEES)
      && (form.maxAttendees.Some? ==> conf.maxAttendees == form.maxAttendees.value)
      // the month comes from the start date, never from the form
      && (form.startDate.Some? ==> conf.month == form.startDate.value.month)
      && (form.startDate.None? ==> conf.month == 0)
      // a positive capacity opens that many seats; otherwise the sent or default seat count stays
      && (conf.maxAttendees > 0 ==> conf.seatsAvailable == conf.maxAttendees)
      && (conf.maxAttendees <= 0 ==> conf.seatsAvailable == form.seatsAvailable.GetOr(DEFAULT_SEATS_AVAILABLE))
  {
    if caller.None? then Err(Unauthorized)
    else if !Filled(form.name) then Err(BadRequest(NameRequired))
    else
      var echo := WithDefaults(form).(organizerUserId := Some(caller.value.userId));
      var maxAttendees := echo.maxAttendees.value;
      var conf := Conference(
        creatorUserId := caller.value.userId,
        name := form.name.value,
        description := form.description,
        organizerUserId := caller.value.userId,
        topics := echo.topics,
        city := echo.city.value,
        startDate := form.startDate,
        endDate := form.endDate,
        month := if form.startDate.Some? then form.startDate.value.month else 0,
        maxAttendees := maxAttendees,
        seatsAvailable := if maxAttendees > 0 then maxAttendees else echo.seatsAvailable.value);
      Ok(Created(s.(conferences := s.conferences[key := conf]), conf, echo))
  }

  /** The form with every missing DEFAULTS field filled in, as the source
      writes the defaults back into the request it returns. */
  function WithDefaults(form: ConferenceForm): (f: ConferenceForm)
    ensures f.city.Some? && f.maxAttendees.Some? && f.seatsAvailable.Some? && f.topics != []
    ensures form.city.Some? ==> f.city == form.city
    ensures form.maxAttendees.Some? ==> f.maxAttendees == form.maxAttendees
    ensures form.seatsAvailable.Some? ==> f.seatsAvailable == form.seatsAvailable
    ensures form.topics != [] ==> f.topics == form.topics
    ensures form.city.None? ==> f.city == Some(DEFAULT_CITY)
    ensures form.maxAttendees.None? ==> f.maxAttendees == Some(DEFAULT_MAX_ATTENDEES)
    ensures form.seatsAvailable.None? ==> f.seatsAvailable == Some(DEFAULT_SEATS_AVAILABLE)
    ensures form.topics == [] ==> f.topics == DEFAULT_TOPICS
    ensures f.(city := form.city, maxAttendees := form.maxAttendees,
               seatsAvailable := form.seatsAvailable, topics := form.topics) == form
  {
    form.(
      city := if form.city.None? then Some(DEFAULT_CITY) else form.city,
      maxAttendees := if form.maxAttendees.None? then Some(DEFAULT_MAX_ATTENDEES) else form.maxAttendees,
      seatsAvailable := if form.seatsAvailable.None? then Some(DEFAULT_SEATS_AVAILABLE) else form.seatsAvailable,
      topics := if form.topics == [] then DEFAULT_TOPICS else form.topics)
  }

  /** The echoed form is the request with its defaults and organizer filled
      in: unlike the stored conference it keeps the request's month and seat
      count. */
  lemma CreateEcho(s: Store, caller: Option<Caller>, form: ConferenceForm, key: ConfKey)
    requires key !in s.conferences
    requires CreateConference(s, caller, form, key).Ok?
    ensures var r := CreateConference(s, caller, form, key).value;
      && r.echo == WithDefaults(form).(organizerUserId := Some(caller.value.userId))
      && r.echo.month == form.month
      && r.echo.seatsAvailable == Some(form.seatsAvailable.GetOr(DEFAULT_SEATS_AVAILABLE))
  {
  }

  /** A new conference has no attendees, so a positive capacity starts with
      seats plus attendees equal to that capacity; the store stays well formed. */
  lemma CreateStartsAtCapacity(s: Store, caller: Option<Caller>, form: ConferenceForm, key: ConfKey)
    requires WellFormed(s)
    requires key !in s.conferences
    requires CreateConference(s, caller, form, key).Ok?
    ensures var r := CreateConference(s, caller, form, key).value;
      && WellFormed(r.store)
      && key in r.store.conferences
      && Attendees(r.store, key) == {}
      && (r.conference.maxAttendees > 0 ==>
            r.store.conferences[key].seatsAvailable + |Attendees(r.store, key)| == r.conference.maxAttendees)
  {
    var r := CreateConference(s, caller, form, key).value;
    forall u | u in s.profiles
      ensures key !in s.profiles[u].conferenceKeysToAttend
    {
      assert ProfileWellFormed(s, s.profiles[u]);
    }
    forall u | u in r.store.profiles
      ensures ProfileWellFormed(r.store, r.store.profiles[u])
    {
      assert ProfileWellFormed(s, s.profiles[u]);
    }
  }

  /** The field copy of `_updateConferenceObject`: every field the form
      carries replaces the stored one, a new start date also resets the month,
      and an explicit month is copied after it. */
  function CopyFields(conf: Conference, form: ConferenceForm): (c: Conference)
    // a sent organizer id hands the conference over; none keeps the owner
    ensures form.organizerUserId.Some? ==> c.organizerUserId == form.organizerUserId.value
    ensures form.organizerUserId.None? ==> c.organizerUserId == conf.organizerUserId
    // the key, and so the creator, never changes
    ensures c.creatorUserId == conf.creatorUserId
    // a new start date resets the month unless the form also sends one
    ensures form.month.Some? ==> c.month == form.month.value
    ensures form.month.None? && form.startDate.Some? ==> c.month == form.startDate.value.month
    ensures form.month.None? && form.startDate.None? ==> c.month == conf.month
    ensures form.maxAttendees.Some? ==> c.maxAttendees == form.maxAttendees.value
    // the seat count is never derived from a changed capacity
    ensures form.seatsAvailable.Some? ==> c.seatsAvailable == form.seatsAvailable.value
    ensures form.seatsAvailable.None? ==> c.seatsAvailable == conf.seatsAvailable
  {
    var month := if form.month.Some? then form.month.value
                 else if form.startDate.Some? then form.startDate.value.month
                 else conf.month;
    conf.(
      name := form.name.GetOr(conf.name),
      description := if form.description.Some? then form.description else conf.description,
      organizerUserId := form.organizerUserId.GetOr(conf.organizerUserId),
      topics := if form.topics != [] then form.topics else conf.topics,
      city := form.city.GetOr(conf.city),
      startDate := if form.startDate.Some? then form.startDate else conf.startDate,
      endDate := if form.endDate.Some? then form.endDate else conf.endDate,
      month := month,
      maxAttendees := form.maxAttendees.GetOr(conf.maxAttendees),
      seatsAvailable := form.seatsAvailable.GetOr(conf.seatsAvailable))
  }

  /** A field the form leaves out keeps its stored value; one it sends
      replaces it. */
  lemma CopyFieldsFieldwise(conf: Conference, form: ConferenceForm)
    ensures form.name.None? ==> CopyFields(conf, form).name == conf.name
    ensures form.description.None? ==> CopyFields(conf, form).description == conf.description
    ensures form.topics == [] ==> CopyFields(conf, form).topics == conf.topics
    ensures form.city.None? ==> CopyFields(conf, form).city == conf.city
    ensures form.startDate.None? ==> CopyFields(conf, form).startDate == conf.startDate
    ensures form.endDate.None? ==> CopyFields(conf, form).endDate == conf.endDate
    ensures form.maxAttendees.None? ==> CopyFields(conf, form).maxAttendees == conf.maxAttendees
    ensures form.name.Some? ==> CopyFields(conf, form).name == form.name.value
    ensures form.description.Some? ==> CopyFields(conf, form).description == form.description
    ensures form.city.Some? ==> CopyFields(conf, form).city == form.city.value
    ensures form.startDate.Some? ==> CopyFields(conf, form).startDate == form.startDate
    ensures form.endDate.Some? ==> CopyFields(conf, form).endDate == form.endDate
    ensures form.topics != [] ==> CopyFields(conf, form).topics == form.topics
  {
  }

  /** The form that carries no field. */
  const EMPTY_FORM := ConferenceForm(None, None, None, [], None, None, None, None, None, None)

  /** An empty form changes nothing, and applying the same form twice is the
      same as applying it once. */
  lemma CopyFieldsIdentityAndIdempotent(conf: Conference, form: ConferenceForm)
    ensures CopyFields(conf, EMPTY_FORM) == conf
    ensures CopyFields(CopyFields(conf, form), form) == CopyFields(conf, form)
  {
  }

  /** `_updateConferenceObject`, one transaction: only the organizer may
      update; the organizer's profile is read after the write, and a missing
      profile aborts the transaction. */
  function UpdateConference(s: Store, caller: Option<Caller>, ck: ConfKey, form: ConferenceForm): (r: Result<(Store, Conference)>)
    ensures caller.None? ==> r == Err(Unauthorized)
    ensures caller.Some? && ck !in s.conferences ==> r == Err(NotFound)
    ensures caller.Some? && ck in s.conferences ==>
      (r == Err(Forbidden) <==> caller.value.userId != s.conferences[ck].organizerUserId)
    ensures r.Ok? <==>
      caller.Some? && ck in s.conferences
      && caller.value.userId == s.conferences[ck].organizerUserId
      && caller.value.userId == s.conferences[ck].creatorUserId
      && caller.value.userId in s.profiles
    ensures r.Err? ==> r.error in {Unauthorized, NotFound, Forbidden, Internal(CrossGroupRead), Internal(MissingProfile)}
    // the organizer's profile is read after the write, inside a transaction
    // confined to the conference's entity group: an organizer who received the
    // conference from its creator has a profile outside it, and the read fails
    ensures caller.Some? && ck in s.conferences && caller.value.userId == s.conferences[ck].organizerUserId ==>
      (r == Err(Internal(CrossGroupRead)) <==> caller.value.userId != s.conferences[ck].creatorUserId)
    // without a profile the update rolls back
    ensures caller.Some? && ck in s.conferences && caller.value.userId == s.conferences[ck].organizerUserId
            && caller.value.userId == s.conferences[ck].creatorUserId ==>
      (r == Err(Internal(MissingProfile)) <==> caller.value.userId !in s.profiles)
    ensures r.Ok? ==>
      && r.value.1 == CopyFields(s.conferences[ck], form)
      && r.value.0 == s.(conferences := s.conferences[ck := r.value.1])
  {
    if caller.None? then Err(Unauthorized)
    else if ck !in s.conferences then Err(NotFound)
    else
      var conf := s.conferences[ck];
      if caller.value.userId != conf.organizerUserId then Err(Forbidden)
      else
        var conf' := CopyFields(conf, form);
        if caller.value.userId != conf.creatorUserId then Err(Internal(CrossGroupRead))
        else if caller.value.userId !in s.profiles then Err(Internal(MissingProfile))
        else Ok((s.(conferences := s.conferences[ck := conf']), conf'))
  }

  /** Once an update hands the conference to another user, neither can update
      it again: the old organizer is no longer the organizer, and the new one's
      profile lies outside the conference's entity group. */
  lemma UpdateAfterTransfer(s: Store, c: Caller, d: Caller, ck: ConfKey, form: ConferenceForm, form2: ConferenceForm)
    requires UpdateConference(s, Some(c), ck, form).Ok?
    requires form.organizerUserId == Some(d.userId) && d.userId != c.userId
    ensures var s' := UpdateConference(s, Some(c), ck, form).value.0;
      && UpdateConference(s', Some(c), ck, form2) == Err(Forbidden)
      && UpdateConference(s', Some(d), ck, form2) == Err(Internal(CrossGroupRead))
  {
  }

  /** An update that does not send a seat count keeps seats plus attendees of
      every conference, even when it changes the capacity, and keeps the store
      well formed. */
  lemma UpdateKeepsSeats(s: Store, caller: Option<Caller>, ck: ConfKey, form: ConferenceForm, k: ConfKey)
    requires WellFormed(s)
    requires UpdateConference(s, caller, ck, form).Ok?
    requires form.seatsAvailable.None?
    requires k in s.conferences
    ensures var s' := UpdateConference(s, caller, ck, form).value.0;
      && WellFormed(s')
      && k in s'.conferences
      && s'.conferences[k].seatsAvailable == s.conferences[k].seatsAvailable
      && Attendees(s', k) == Attendees(s, k)
  {
    var s' := UpdateConference(s, caller, ck, form).value.0;
    forall u | u in s'.profiles
      ensures ProfileWellFormed(s', s'.profiles[u])
    {
      assert ProfileWellFormed(s, s.profiles[u]);
    }
  }

  /** `d` lies in the closed range from `start` to `end`. */
  predicate Within(d: Date, start: Date, end: Date) {
    !Before(d, start) && !Before(end, d)
  }

  /** `_createSessionObject`. The source reads the conference without checking
      that it exists, so its existence is required here; `key` is the
      identifier the datastore allocates under the conference. */
  function CreateSession(s: Store, caller: Option<Caller>, ck: ConfKey, form: SessionForm, key: SessionKey): (r: Result<(Store, Session)>)
    requires ck in s.conferences
    requires key !in s.sessions
    ensures caller.None? ==> r == Err(Unauthorized)
    ensures caller.Some? ==> r != Err(Unauthorized)
    ensures caller.Some? ==>
      (r == Err(Forbidden) <==> caller.value.userId != s.conferences[ck].organizerUserId)
    ensures caller.Some? && caller.value.userId == s.conferences[ck].organizerUserId ==>
      (r == Err(BadRequest(NameRequired)) <==> !Filled(form.name))
    ensures r.Err? ==> r.error in {Unauthorized, Forbidden, BadRequest(NameRequired),
                                   BadRequest(OutsideConferenceDates), Internal(DateComparedWithNone)}
    // once the organizer sends a name, the date check alone decides
    ensures var conf := s.conferences[ck];
      caller.Some? && caller.value.userId == conf.organizerUserId && Filled(form.name) ==>
        && (r.Ok? <==> CheckSessionDate(form.date, conf).Ok?)
        && (r.Err? ==> r.error == CheckSessionDate(form.date, conf).error)
    // a dated session must fall within the conference's dates
    ensures var conf := s.conferences[ck];
      caller.Some? && caller.value.userId == conf.organizerUserId && Filled(form.name)
      && form.date.Some? && conf.startDate.Some? && conf.endDate.Some? ==>
        (r.Ok? <==> Within(form.date.value, conf.startDate.value, conf.endDate.value))
    ensures r.Ok? && r.value.1.date.Some? ==>
      var conf := s.conferences[ck];
      conf.startDate.Some? && conf.endDate.Some?
      && Within(r.value.1.date.value, conf.startDate.value, conf.endDate.value)
    ensures r.Ok? ==>
      var session := r.value.1;
      && r.value.0 == s.(sessions := s.sessions[key := session])
      && session.conference == ck
      && session.name == form.name.value
      && session.date == form.date
      && session.highlights == form.highlights && session.speaker == form.speaker
      && session.duration == form.duration && session.startTime == form.startTime
      && session.sessionType == form.sessionType.GetOr(DEFAULT_SESSION_TYPE)
      && session.location == form.location.GetOr(DEFAULT_LOCATION)
  {
    if caller.None? then Err(Unauthorized)
    else
      var conf := s.conferences[ck];
      if caller.value.userId != conf.organizerUserId then Err(Forbidden)
      else if !Filled(form.name) then Err(BadRequest(NameRequired))
      else
        var session := Session(
          conference := ck,
          name := form.name.value,
          highlights := form.highlights,
          speaker := form.speaker,
          duration := form.duration,
          sessionType := if form.sessionType.None? then DEFAULT_SESSION_TYPE else form.sessionType.value,
          date := form.date,
          startTime := form.startTime,
          location := if form.location.None? then DEFAULT_LOCATION else form.location.value);
        var checked := CheckSessionDate(form.date, conf);
        if checked.Err? then Err(checked.error)
        else Ok((s.(sessions := s.sessions[key := session]), session))
  }

  /** The date check: a session date is refused when it lies before the
      conference's start or after its end. The start is compared first and the
      end only when that comparison passed; comparing with a conference date
      that is unset raises. */
  function CheckSessionDate(date: Option<Date>, conf: Conference): (r: Result<()>)
    ensures date.None? ==> r.Ok?
    ensures r.Ok? && date.Some? ==>
      conf.startDate.Some? && conf.endDate.Some? && Within(date.value, conf.startDate.value, conf.endDate.value)
    ensures date.Some? && conf.startDate.Some? && conf.endDate.Some? ==>
      (r.Ok? <==> Within(date.value, conf.startDate.value, conf.endDate.value))
    ensures r.Err? ==> r.error in {BadRequest(OutsideConferenceDates), Internal(DateComparedWithNone)}
    ensures date.Some? && conf.startDate.Some? && conf.endDate.Some?
            && !Within(date.value, conf.startDate.value, conf.endDate.value) ==>
      r == Err(BadRequest(OutsideConferenceDates))
    // comparing with an unset conference date raises; the end is only reached
    // when the date is not before the start
    ensures r == Err(Internal(DateComparedWithNone)) <==>
      date.Some? && (conf.startDate.None? || (!Before(date.value, conf.startDate.value) && conf.endDate.None?))
    ensures r == Err(BadRequest(OutsideConferenceDates)) ==>
      date.Some? && ((conf.startDate.Some? && Before(date.value, conf.startDate.value))
                     || (conf.endDate.Some? && Before(conf.endDate.value, date.value)))
  {
    if date.None? then Ok(())
    else if conf.startDate.None? then Err(Internal(DateComparedWithNone))
    else if Before(date.value, conf.startDate.value) then Err(BadRequest(OutsideConferenceDates))
    else if conf.endDate.None? then Err(Internal(DateComparedWithNone))
    else if Before(conf.endDate.value, date.value) then Err(BadRequest(OutsideConferenceDates))
    else Ok(())
  }

  /** Creating a session keeps the store well formed and leaves profiles and
      conferences untouched. */
  lemma CreateSessionWellFormed(s: Store, caller: Option<Caller>, ck: ConfKey, form: SessionForm, key: SessionKey)
    requires WellFormed(s)
    requires ck in s.conferences && key !in s.sessions
    requires CreateSession(s, caller, ck, form, key).Ok?
    ensures var s' := CreateSession(s, caller, ck, form, key).value.0;
      WellFormed(s') && s'.profiles == s.profiles && s'.conferences == s.conferences
  {
    var s' := CreateSession(s, caller, ck, form, key).value.0;
    forall u | u in s'.profiles
      ensures ProfileWellFormed(s', s'.profiles[u])
    {
      assert ProfileWellFormed(s, s.profiles[u]);
    }
  }
}

=== FILE: capacity.dfy ===
/** Capacity of a conference over its whole life: created with a positive
    `maxAttendees`, it is never oversold by any series of registration
    requests that follows. */
module Capacity {
  import opened Errors
  import opened Models
  import opened Registration
  import opened Builders

  /** Whatever registration requests follow the creation of a conference
      with capacity N > 0, its seats plus its registered profiles stay N,
      its seats stay non-negative and at most N profiles are registered. */
  lemma NeverOversold(s: Store, caller: Option<Caller>, form: ConferenceForm, key: ConfKey, requests: seq<Request>)
    requires WellFormed(s)
    requires key !in s.conferences
    requires CreateConference(s, caller, form, key).Ok?
    requires CreateConference(s, caller, form, key).value.conference.maxAttendees > 0
    ensures var n := CreateConference(s, caller, form, key).value.conference.maxAttendees;
      var s' := Run(CreateConference(s, caller, form, key).value.store, requests);
      && key in s'.conferences
      && Seats(s', key) + |Attendees(s', key)| == n
      && 0 <= Seats(s', key)
      && |Attendees(s', key)| <= n
  {
    var created := CreateConference(s, caller, form, key).value;
    CreateStartsAtCapacity(s, caller, form, key);
    assert Seats(created.store, key) == created.conference.maxAttendees;
    RunConservesSeats(created.store, requests, key);
  }

  /** A caller outside the attendees of `k` does not hold `k`. */
  lemma NotHeld(s: Store, c: Caller, k: ConfKey)
    requires c.userId !in Attendees(s, k)
    ensures k !in ProfileOf(s, c).conferenceKeysToAttend
  {
  }

  /** A registration step by one caller leaves every other caller's profile
      as it was. */
  lemma OtherProfileKept(s: Store, s': Store, c: Caller, d: Caller, ck: ConfKey)
    requires OnlyTouches(s, s', c.userId, ck)
    requires c.userId != d.userId
    ensures ProfileOf(s', d) == ProfileOf(s, d)
  {
  }

  /** The two-seat walk-through: A and B take both seats, C is refused for
      lack of seats, A gives a seat back and C then gets it. `s0` holds a
      conference with two seats that none of the three attends, as
      `CreateStartsAtCapacity` leaves one created with capacity 2. */
  lemma TwoSeatScenario(s0: Store, key: ConfKey, a: Caller, b: Caller, c: Caller)
    requires key in s0.conferences && Seats(s0, key) == 2
    requires a.userId !in Attendees(s0, key) && b.userId !in Attendees(s0, key) && c.userId !in Attendees(s0, key)
    requires a.userId != b.userId && b.userId != c.userId && a.userId != c.userId
    ensures var r1 := ConferenceRegistration(s0, Some(a), key, true);
      && r1.Ok? && Seats(r1.value.0, key) == 1
      && var r2 := ConferenceRegistration(r1.value.0, Some(b), key, true);
      && r2.Ok? && Seats(r2.value.0, key) == 0
      && ConferenceRegistration(r2.value.0, Some(c), key, true) == Err(Conflict(NoSeatsAvailable))
      && var r3 := ConferenceRegistration(r2.value.0, Some(a), key, false);
      && r3.Ok? && r3.value.1 && Seats(r3.value.0, key) == 1
      && var r4 := ConferenceRegistration(r3.value.0, Some(c), key, true);
      && r4.Ok? && Seats(r4.value.0, key) == 0
  {
    NotHeld(s0, a, key);
    NotHeld(s0, b, key);
    NotHeld(s0, c, key);

    var s1 := Register(s0, a, key).value;
    OtherProfileKept(s0, s1, a, b, key);
    OtherProfileKept(s0, s1, a, c, key);

    var s2 := Register(s1, b, key).value;
    OtherProfileKept(s1, s2, b, a, key);
    OtherProfileKept(s1, s2, b, c, key);
    assert key in ProfileOf(s2, a).conferenceKeysToAttend;

    var s3 := Unregister(s2, a, key).0;
    OtherProfileKept(s2, s3, a, c, key);
  }
}

=== FILE: errors.dfy ===
/** The failures the conference API surfaces to its callers.

    The endpoint exceptions the code raises on purpose (unauthorized, not
    found, forbidden, bad request, conflict) each have a constructor; the
    exceptions it raises without meaning to (a failed integer conversion, a
    date compared with a missing date, an attribute read on a missing
    profile) become `Internal`, which a caller sees as a server error. */
module Errors {

  datatype BadRequestReason =
    | NameRequired               // the conference or session has no name
    | InvalidFilter              // a filter names a field or operator outside the whitelists
    | MultipleInequalityFields   // inequality filters name two different fields
    | OutsideConferenceDates     // a session date falls before the start or after the end

  datatype ConflictReason =
    | AlreadyRegistered          // the caller already attends the conference
    | NoSeatsAvailable           // the conference has no seat left
    | AlreadyInWishlist          // the session is already on the caller's wishlist

  datatype InternalReason =
    | NotAnInteger               // int() of a filter value that is not a decimal integer
    | DateComparedWithNone       // a session date compared with a conference date that is unset
    | MissingProfile             // the updater's profile is read after the update but does not exist
    | CrossGroupRead             // a single-group transaction reads a profile outside the conference's group

  datatype Error =
    | Unauthorized
    | NotFound
    | Forbidden
    | BadRequest(why: BadRequestReason)
    | Conflict(conflict: ConflictReason)
    | Internal(cause: InternalReason)

  /** Success value or the error that ended the request; usable with `:-`. */
  datatype Result<+T> = Ok(value: T) | Err(error: Error) {

    predicate IsFailure() {
      Err?
    }

    function PropagateFailure<U>(): Result<U>
      requires Err?
    {
      Err(error)
    }

    function Extract(): T
      requires Ok?
    {
      value
    }
  }

  datatype Option<+T> = None | Some(value: T) {

    function GetOr(default: T): T {
      match this
      case Some(v) => v
      case None => default
    }
  }
}

=== FILE: filters.dfy ===
/** The conference query path: `_formatFilters` checks each user filter
    against the field and operator whitelists and enforces the one
    inequality field the datastore allows per query; `_getQuery` then orders
    the query and converts the values of the integer fields. The query itself
    is a plain record of its sort order and its filters. */
module Filters {
  import opened Errors

  /** The comparison operators a filter may name, and their datastore form. */
  const OPERATORS: map<string, string> := map[
    "EQ" := "=",
    "GT" := ">",
    "GTEQ" := ">=",
    "LT" := "<",
    "LTEQ" := "<=",
    "NE" := "!="]

  /** The conference fields a filter may name, and their property names. */
  const FIELDS: map<string, string> := map[
    "CITY" := "city",
    "TOPIC" := "topics",
    "MONTH" := "month",
    "MAX_ATTENDEES" := "maxAttendees"]

  /** A filter as the user sends it. */
  datatype FilterSpec = FilterSpec(field: string, operator: string, value: string)

  /** A filter after whitelist translation. */
  datatype Filter = Filter(field: string, operator: string, value: string)

  /** What `_formatFilters` returns: the inequality field, if any, and the filters. */
  datatype Formatted = Formatted(inequalityField: Option<string>, filters: seq<Filter>)

  datatype Value = Text(text: string) | Number(number: int)

  datatype QueryFilter = QueryFilter(field: string, operator: string, value: Value)

  /** A conference query: the properties it sorts by, in order, and its
      conjunctive filters. */
  datatype Query = Query(ordering: seq<string>, filters: seq<QueryFilter>)

  predicate Known(f: FilterSpec) {
    f.field in FIELDS && f.operator in OPERATORS
  }

  function Translate(f: FilterSpec): Filter
    requires Known(f)
  {
    Filter(FIELDS[f.field], OPERATORS[f.operator], f.value)
  }

  /** A filter is an inequality when its datastore operator is anything but equality. */
  predicate IsInequality(f: FilterSpec) {
    Known(f) && OPERATORS[f.operator] != "="
  }

  predicate AllKnown(fs: seq<FilterSpec>) {
    forall f :: f in fs ==> Known(f)
  }

  /** No two inequality filters name different fields. */
  predicate SingleInequalityField(fs: seq<FilterSpec>) {
    forall f, g :: f in fs && g in fs && IsInequality(f) && IsInequality(g) ==>
      FIELDS[f.field] == FIELDS[g.field]
  }

  /** The filter lists the parser accepts. */
  predicate Admissible(fs: seq<FilterSpec>) {
    AllKnown(fs) && SingleInequalityField(fs)
  }

  /** `_formatFilters`: translate each filter in order, failing on the first
      one whose field or operator is unknown or whose inequality names a
      second field. */
  method FormatFilters(filters: seq<FilterSpec>) returns (r: Result<Formatted>)
    ensures r.Ok? <==> Admissible(filters)
    ensures r.Err? ==> r.error.BadRequest?
    ensures r.Err? && AllKnown(filters) ==> r.error == BadRequest(MultipleInequalityFields)
    ensures r.Err? && SingleInequalityField(filters) ==> r.error == BadRequest(InvalidFilter)
    // the first filter that makes the list inadmissible decides the reason
    ensures r.Err? ==> exists i :: (0 <= i < |filters| && Admissible(filters[..i]) && !Admissible(filters[..i + 1])
      && r.error == BadRequest(if Known(filters[i]) then MultipleInequalityFields else InvalidFilter))
    ensures r.Ok? ==> |r.value.filters| == |filters|
    ensures r.Ok? ==> forall i :: 0 <= i < |filters| ==> r.value.filters[i] == Translate(filters[i])
    ensures r.Ok? ==> (r.value.inequalityField.None? <==> forall f :: f in filters ==> !IsInequality(f))
    ensures r.Ok? ==> forall f :: f in filters && IsInequality(f) ==> r.value.inequalityField == Some(FIELDS[f.field])
  {
    var formatted: seq<Filter> := [];
    var inequality: Option<string> := None;
    var i := 0;
    while i < |filters|
      invariant 0 <= i <= |filters|
      invariant Admissible(filters[..i])
      invariant |formatted| == i
      invariant forall j :: 0 <= j < i ==> formatted[j] == Translate(filters[j])
      invariant inequality.None? <==> forall f :: f in filters[..i] ==> !IsInequality(f)
      invariant forall f :: f in filters[..i] && IsInequality(f) ==> inequality == Some(FIELDS[f.field])
    {
      var f := filters[i];
      assert f in filters;
      if !(f.field in FIELDS && f.operator in OPERATORS) {
        assert f in filters[..i + 1];
        return Err(BadRequest(InvalidFilter));
      }
      var filtr := Translate(f);
      assert filters[..i + 1] == filters[..i] + [f];
      assert IsInequality(f) <==> filtr.operator != "=";
      if filtr.operator != "=" {
        if inequality.Some? && inequality.value != filtr.field {
          var g :| g in filters[..i] && IsInequality(g);
          assert g in filters && f in filters;
          assert g in filters[..i + 1] && f in filters[..i + 1];
          return Err(BadRequest(MultipleInequalityFields));
        }
        inequality := Some(filtr.field);
      }
      formatted := formatted + [filtr];
      i := i + 1;
    }
    assert filters[..i] == filters;
    return Ok(Formatted(inequality, formatted));
  }

  /** Whether a filter list is accepted does not depend on the order of its
      filters: two inequalities on different fields are refused wherever they
      stand. */
  lemma AdmissibleOrderIndependent(a: seq<FilterSpec>, b: seq<FilterSpec>)
    requires multiset(a) == multiset(b)
    ensures Admissible(a) <==> Admissible(b)
  {
    forall f
      ensures f in a <==> f in b
    {
      assert f in a <==> f in multiset(a);
      assert f in b <==> f in multiset(b);
    }
  }

  /** The properties `_getQuery` converts to integers. */
  predicate IsIntegerField(field: string) {
    field == "month" || field == "maxAttendees"
  }

  /** A known filter on an integer field whose value `int()` rejects. */
  predicate BadInteger(f: FilterSpec) {
    Known(f) && IsIntegerField(FIELDS[f.field]) && ParseInt(f.value).None?
  }

  /** The coerced form of one translated filter: integer fields carry the
      parsed number, every other field its text. */
  predicate Coerced(f: Filter, q: QueryFilter) {
    && q.field == f.field
    && q.operator == f.operator
    && (IsIntegerField(f.field) ==> ParseInt(f.value).Some? && q.value == Number(ParseInt(f.value).value))
    && (!IsIntegerField(f.field) ==> q.value == Text(f.value))
  }

  /** The loop of `_getQuery` over the translated filters: convert the value
      of every integer field, failing on the first one `int()` rejects. */
  method CoerceValues(fs: seq<Filter>) returns (r: Result<seq<QueryFilter>>)
    ensures r.Err? <==> exists j :: 0 <= j < |fs| && IsIntegerField(fs[j].field) && ParseInt(fs[j].value).None?
    ensures r.Err? ==> r.error == Internal(NotAnInteger)
    ensures r.Ok? ==> |r.value| == |fs| && forall j :: 0 <= j < |fs| ==> Coerced(fs[j], r.value[j])
  {
    var converted: seq<QueryFilter> := [];
    var i := 0;
    while i < |fs|
      invariant 0 <= i <= |fs|
      invariant |converted| == i
      invariant forall j :: 0 <= j < i ==> !(IsIntegerField(fs[j].field) && ParseInt(fs[j].value).None?)
      invariant forall j :: 0 <= j < i ==> Coerced(fs[j], converted[j])
    {
      var filtr := fs[i];
      var value := Text(filtr.value);
      if IsIntegerField(filtr.field) {
        var n := ParseInt(filtr.value);
        if n.None? {
          return Err(Internal(NotAnInteger));
        }
        value := Number(n.value);
      }
      converted := converted + [QueryFilter(filtr.field, filtr.operator, value)];
      i := i + 1;
    }
    return Ok(converted);
  }

  /** `_getQuery`: sort by the inequality field and then by name, or by name
      alone; convert the values of integer fields; keep every other value. */
  method GetQuery(filters: seq<FilterSpec>) returns (r: Result<Query>)
    ensures r.Err? && r.error.BadRequest? <==> !Admissible(filters)
    ensures r == Err(Internal(NotAnInteger)) <==>
      Admissible(filters) && exists f :: f in filters && BadInteger(f)
    ensures r.Err? ==> r.error.BadRequest? || r.error == Internal(NotAnInteger)
    ensures r.Ok? && (forall f :: f in filters ==> !IsInequality(f)) ==> r.value.ordering == ["name"]
    ensures r.Ok? ==> forall f :: f in filters && IsInequality(f) ==> r.value.ordering == [FIELDS[f.field], "name"]
    ensures r.Ok? ==> |r.value.filters| == |filters|
    ensures r.Ok? ==> forall i :: 0 <= i < |filters| ==>
      && Known(filters[i])
      && r.value.filters[i].field == FIELDS[filters[i].field]
      && r.value.filters[i].operator == OPERATORS[filters[i].operator]
      && (IsIntegerField(FIELDS[filters[i].field]) ==>
            ParseInt(filters[i].value).Some?
            && r.value.filters[i].value == Number(ParseInt(filters[i].value).value))
      && (!IsIntegerField(FIELDS[filters[i].field]) ==> r.value.filters[i].value == Text(filters[i].value))
  {
    var formatted :- FormatFilters(filters);
    var ordering := if formatted.inequalityField.None? then ["name"]
                    else [formatted.inequalityField.value, "name"];
    var fs := formatted.filters;
    assert forall j :: 0 <= j < |filters| ==> filters[j] in filters;
    var converted := CoerceValues(fs);
    if converted.Err? {
      var j :| 0 <= j < |fs| && IsIntegerField(fs[j].field) && ParseInt(fs[j].value).None?;
      assert BadInteger(filters[j]);
      return Err(Internal(NotAnInteger));
    }
    assert forall f :: f in filters ==> !BadInteger(f) by {
      forall f | f in filters
        ensures !BadInteger(f)
      {
        var j :| 0 <= j < |filters| && filters[j] == f;
        assert Coerced(fs[j], converted.value[j]);
      }
    }
    var cs := converted.value;
    assert forall j :: 0 <= j < |filters| ==> Coerced(fs[j], cs[j]);
    return Ok(Query(ordering, cs));
  }

  // Python's int() on a filter value, in its plain form: an optional sign
  // followed by decimal digits.

  predicate IsDigit(c: char) {
    '0' <= c <= '9'
  }

  predicate AllDigits(s: string) {
    forall i :: 0 <= i < |s| ==> IsDigit(s[i])
  }

  function DigitsValue(s: string): nat
    requires AllDigits(s)
  {
    if |s| == 0 then 0
    else DigitsValue(s[..|s| - 1]) * 10 + ((s[|s| - 1] as int) - ('0' as int))
  }

  /** What `int()` accepts here: an optional sign, then at least one digit. */
  predicate IntegerLiteral(s: string) {
    if |s| > 0 && (s[0] == '-' || s[0] == '+') then |s| > 1 && AllDigits(s[1..])
    else |s| > 0 && AllDigits(s)
  }

  function ParseInt(s: string): (r: Option<int>)
    ensures r.Some? <==> IntegerLiteral(s)
    ensures r.Some? && s[0] == '-' ==> r.value <= 0
    ensures r.Some? && s[0] != '-' ==> r.value >= 0
    ensures r.Some? && s[0] != '-' && s[0] != '+' ==> r.value == DigitsValue(s)
    ensures r.Some? && s[0] == '-' ==> AllDigits(s[1..]) && r.value == 0 - DigitsValue(s[1..])
    ensures r.Some? && s[0] == '+' ==> AllDigits(s[1..]) && r.value == DigitsValue(s[1..])
  {
    if |s| > 0 && (s[0] == '-' || s[0] == '+') then
      var digits := s[1..];
      if |digits| > 0 && AllDigits(digits) then
        var magnitude: int := DigitsValue(digits);
        Some(if s[0] == '-' then -magnitude else magnitude)
      else None
    else if |s| > 0 && AllDigits(s) then Some(DigitsValue(s))
    else None
  }

  /** Python's `str()` of an integer, the inverse of `ParseInt`. */
  function ShowInt(n: int): string {
    if n < 0 then "-" + ShowNat(-n) else ShowNat(n)
  }

  function ShowNat(n: nat): string {
    var last := [((n % 10) + ('0' as int)) as char];
    if n < 10 then last else ShowNat(n / 10) + last
  }

  lemma {:induction false} ShowNatDigits(n: nat)
    ensures |ShowNat(n)| > 0 && AllDigits(ShowNat(n))
    ensures DigitsValue(ShowNat(n)) == n
  {
    var s := ShowNat(n);
    if n >= 10 {
      ShowNatDigits(n / 10);
      assert s[..|s| - 1] == ShowNat(n / 10);
    }
  }

  /** Every integer's decimal form converts back to that integer. */
  lemma ParseShowInt(n: int)
    ensures ParseInt(ShowInt(n)) == Some(n)
  {
    if n < 0 {
      ShowNatDigits(-n);
      assert ShowInt(n)[1..] == ShowNat(-n);
    } else {
      ShowNatDigits(n);
      assert IsDigit(ShowInt(n)[0]);
    }
  }
}

=== FILE: models.dfy ===
/** The entities the API reads and writes, and the store that holds them.

    The datastore is reduced to three maps from opaque keys to immutable
    records: profiles by user id, conferences and sessions by their websafe
    key strings. Dates and times are taken as already parsed. */
module Models {
  import opened Errors
  import opened Seqs

  type UserId = string
  type ConfKey = string
  type SessionKey = string

  /** A calendar date, ordered lexicographically by (year, month, day). */
  datatype Date = Date(year: int, month: int, day: int)

  /** `a` comes strictly before `b`. */
  predicate Before(a: Date, b: Date) {
    a.year < b.year
    || (a.year == b.year && a.month < b.month)
    || (a.year == b.year && a.month == b.month && a.day < b.day)
  }

  /** A time of day, hours and minutes. */
  datatype Time = Time(hour: int, minute: int)

  /** The verified caller: the id the authentication layer derives for the
      user, with the nickname and email a new profile is created from. */
  datatype Caller = Caller(userId: UserId, nickname: string, email: string)

  datatype Profile = Profile(
    displayName: string,
    mainEmail: string,
    teeShirtSize: string,
    conferenceKeysToAttend: seq<ConfKey>,
    sessionWishlistKeys: seq<SessionKey>)

  /** A stored conference. `creatorUserId` is the user whose profile key is
      the parent of the conference's key, so the conference lives in that
      profile's entity group; `organizerUserId` starts equal to it but an
      update may change it. */
  datatype Conference = Conference(
    creatorUserId: UserId,
    name: string,
    description: Option<string>,
    organizerUserId: UserId,
    topics: seq<string>,
    city: string,
    startDate: Option<Date>,
    endDate: Option<Date>,
    month: int,
    maxAttendees: int,
    seatsAvailable: int)

  datatype Session = Session(
    conference: ConfKey,
    name: string,
    highlights: Option<string>,
    speaker: Option<string>,
    duration: Option<int>,
    sessionType: string,
    date: Option<Date>,
    startTime: Option<Time>,
    location: string)

  datatype Store = Store(
    profiles: map<UserId, Profile>,
    conferences: map<ConfKey, Conference>,
    sessions: map<SessionKey, Session>)

  /** The profile `_getProfileFromUser` creates for a caller seen for the first time. */
  function NewProfile(c: Caller): (p: Profile)
    ensures p.conferenceKeysToAttend == [] && p.sessionWishlistKeys == []
    ensures p.displayName == c.nickname && p.mainEmail == c.email
  {
    Profile(c.nickname, c.email, "NOT_SPECIFIED", [], [])
  }

  /** The caller's stored profile, or the one that would be created. */
  function ProfileOf(s: Store, c: Caller): Profile {
    if c.userId in s.profiles then s.profiles[c.userId] else NewProfile(c)
  }

  /** The store after `_getProfileFromUser`: the caller's profile exists, and
      nothing that was stored before has changed. */
  function EnsureProfile(s: Store, c: Caller): (s': Store)
    ensures c.userId in s'.profiles && s'.profiles[c.userId] == ProfileOf(s, c)
    ensures s'.profiles.Keys == s.profiles.Keys + {c.userId}
    ensures c.userId in s.profiles ==> s' == s
    ensures forall u :: u in s.profiles ==> s'.profiles[u] == s.profiles[u]
    ensures s'.conferences == s.conferences && s'.sessions == s.sessions
  {
    s.(profiles := s.profiles[c.userId := ProfileOf(s, c)])
  }

  /** The users whose attend-list holds `ck`. */
  function Attendees(s: Store, ck: ConfKey): set<UserId> {
    set u | u in s.profiles && ck in s.profiles[u].conferenceKeysToAttend
  }

  /** What every request keeps true of the store: no attend-list or wishlist
      holds a key twice, and every key in them names a stored entity. */
  ghost predicate WellFormed(s: Store) {
    forall u :: u in s.profiles ==> ProfileWellFormed(s, s.profiles[u])
  }

  ghost predicate ProfileWellFormed(s: Store, p: Profile) {
    && NoDuplicates(p.conferenceKeysToAttend)
    && NoDuplicates(p.sessionWishlistKeys)
    && (forall k :: k in p.conferenceKeysToAttend ==> k in s.conferences)
    && (forall k :: k in p.sessionWishlistKeys ==> k in s.sessions)
  }

  /** Creating a missing profile keeps the store well formed. */
  lemma EnsureProfileWellFormed(s: Store, c: Caller)
    requires WellFormed(s)
    ensures WellFormed(EnsureProfile(s, c))
  {
  }
}

=== FILE: registration.dfy ===
/** Registering for and unregistering from a conference.

    The source runs `_conferenceRegistration` as one cross-group transaction
    over the caller's profile and the conference, so it is modelled as one
    atomic step from store to store: a request that fails leaves the store
    exactly as it was (the transaction rolls back, including the profile a
    first-time caller would have been given). */
module Registration {
  import opened Errors
  import opened Seqs
  import opened Models

  /** The store with one profile and one conference replaced. */
  function PutBoth(s: Store, u: UserId, p: Profile, ck: ConfKey, c: Conference): Store {
    s.(profiles := s.profiles[u := p], conferences := s.conferences[ck := c])
  }

  /** Only the caller's profile and conference `ck` may differ between `s`
      and `s'`; every other stored entity is untouched. */
  ghost predicate OnlyTouches(s: Store, s': Store, u: UserId, ck: ConfKey) {
    && u in s'.profiles
    && ck in s.conferences && ck in s'.conferences
    && s'.profiles == s.profiles[u := s'.profiles[u]]
    && s'.conferences == s.conferences[ck := s'.conferences[ck]]
    && s'.sessions == s.sessions
  }

  /** The register branch: refused when the caller already holds `ck` or
      when no seat is left; otherwise appends `ck` once and takes one seat. */
  function Register(s: Store, c: Caller, ck: ConfKey): (r: Result<Store>)
    requires ck in s.conferences
    ensures var keys := ProfileOf(s, c).conferenceKeysToAttend;
      && (r == Err(Conflict(AlreadyRegistered)) <==> ck in keys)
      && (r == Err(Conflict(NoSeatsAvailable)) <==> ck !in keys && s.conferences[ck].seatsAvailable <= 0)
      && (r.Err? ==> r.error.Conflict?)
    ensures r.Ok? ==>
      var s' := r.value;
      && OnlyTouches(s, s', c.userId, ck)
      && s'.profiles[c.userId] == ProfileOf(s, c).(conferenceKeysToAttend := ProfileOf(s, c).conferenceKeysToAttend + [ck])
      && s'.conferences[ck] == s.conferences[ck].(seatsAvailable := s.conferences[ck].seatsAvailable - 1)
  {
    var prof := ProfileOf(s, c);
    var conf := s.conferences[ck];
    if ck in prof.conferenceKeysToAttend then Err(Conflict(AlreadyRegistered))
    else if conf.seatsAvailable <= 0 then Err(Conflict(NoSeatsAvailable))
    else
      var prof' := prof.(conferenceKeysToAttend := prof.conferenceKeysToAttend + [ck]);
      Ok(PutBoth(s, c.userId, prof', ck, conf.(seatsAvailable := conf.seatsAvailable - 1)))
  }

  /** The unregister branch: when the caller holds `ck` it removes it and
      gives the seat back, answering true; otherwise it changes nothing but
      the caller's lazily created profile and answers false. */
  function Unregister(s: Store, c: Caller, ck: ConfKey): (r: (Store, bool))
    requires ck in s.conferences
    ensures var keys := ProfileOf(s, c).conferenceKeysToAttend;
      && (r.1 <==> ck in keys)
      && (!r.1 ==> r.0 == EnsureProfile(s, c))
      && (r.1 ==> && OnlyTouches(s, r.0, c.userId, ck)
                  && r.0.profiles[c.userId] == ProfileOf(s, c).(conferenceKeysToAttend := RemoveFirst(keys, ck))
                  && r.0.conferences[ck] == s.conferences[ck].(seatsAvailable := s.conferences[ck].seatsAvailable + 1))
  {
    var prof := ProfileOf(s, c);
    var conf := s.conferences[ck];
    if ck in prof.conferenceKeysToAttend then
      var prof' := prof.(conferenceKeysToAttend := RemoveFirst(prof.conferenceKeysToAttend, ck));
      (PutBoth(s, c.userId, prof', ck, conf.(seatsAvailable := conf.seatsAvailable + 1)), true)
    else
      (EnsureProfile(s, c), false)
  }

  /** `_conferenceRegistration`: with `reg` it registers the caller for `ck`,
      without it it unregisters; the boolean is the returned indicator. */
  function ConferenceRegistration(s: Store, caller: Option<Caller>, ck: ConfKey, reg: bool): (r: Result<(Store, bool)>)
    ensures caller.None? ==> r == Err(Unauthorized)
    ensures caller.Some? ==> (r == Err(NotFound) <==> ck !in s.conferences)
    ensures caller.Some? && ck in s.conferences && !reg ==> r.Ok?
    ensures r.Err? ==> r.error in {Unauthorized, NotFound, Conflict(AlreadyRegistered), Conflict(NoSeatsAvailable)}
    ensures r.Ok? ==> caller.Some? && ck in s.conferences && (reg ==> r.value.1)
    // a request on a stored conference is exactly its register or unregister step
    ensures caller.Some? && ck in s.conferences && reg ==>
      var step := Register(s, caller.value, ck);
      && (r.Ok? <==> step.Ok?)
      && (r.Ok? ==> r.value.0 == step.value)
      && (r.Err? ==> r.error == step.error)
    ensures caller.Some? && ck in s.conferences && !reg ==> r == Ok(Unregister(s, caller.value, ck))
  {
    if caller.None? then Err(Unauthorized)
    else if ck !in s.conferences then Err(NotFound)
    else if reg then
      var s' :- Register(s, caller.value, ck);
      Ok((s', true))
    else
      Ok(Unregister(s, caller.value, ck))
  }

  function Seats(s: Store, k: ConfKey): int
    requires k in s.conferences
  {
    s.conferences[k].seatsAvailable
  }

  /** A successful registration request keeps the store well formed. */
  lemma RegistrationWellFormed(s: Store, caller: Option<Caller>, ck: ConfKey, reg: bool)
    requires WellFormed(s)
    requires ConferenceRegistration(s, caller, ck, reg).Ok?
    ensures WellFormed(ConferenceRegistration(s, caller, ck, reg).value.0)
  {
    var c := caller.value;
    var s' := ConferenceRegistration(s, caller, ck, reg).value.0;
    var keys := ProfileOf(s, c).conferenceKeysToAttend;
    assert ProfileWellFormed(s, ProfileOf(s, c));
    if reg {
      assert s' == Register(s, c, ck).value;
      assert NoDuplicates(keys + [ck]);
    } else {
      assert s' == Unregister(s, c, ck).0;
      if ck in keys {
        RemoveFirstNoDuplicates(keys, ck);
      }
    }
    forall v | v in s'.profiles
      ensures ProfileWellFormed(s', s'.profiles[v])
    {
      if v != c.userId {
        assert ProfileWellFormed(s, s.profiles[v]);
      }
    }
  }

  /** When the caller's attend-list changes only in whether it holds `ck`,
      the attendees of every other conference stay the same and those of
      `ck` gain or lose exactly the caller. */
  lemma AttendeesAfterListChange(s: Store, s': Store, c: Caller, ck: ConfKey, keys': seq<ConfKey>, k: ConfKey)
    requires s'.profiles == s.profiles[c.userId := ProfileOf(s, c).(conferenceKeysToAttend := keys')]
    requires forall x :: x != ck ==> (x in keys' <==> x in ProfileOf(s, c).conferenceKeysToAttend)
    ensures k != ck || (ck in keys' <==> ck in ProfileOf(s, c).conferenceKeysToAttend) ==>
      Attendees(s', k) == Attendees(s, k)
    ensures var keys := ProfileOf(s, c).conferenceKeysToAttend;
      k == ck && ck in keys' && ck !in keys ==>
        c.userId !in Attendees(s, k) && Attendees(s', k) == Attendees(s, k) + {c.userId}
    ensures var keys := ProfileOf(s, c).conferenceKeysToAttend;
      k == ck && ck !in keys' && ck in keys ==>
        c.userId in Attendees(s, k) && Attendees(s', k) == Attendees(s, k) - {c.userId}
  {
    var u := c.userId;
    assert u in s.profiles ==> s.profiles[u].conferenceKeysToAttend == ProfileOf(s, c).conferenceKeysToAttend;
    assert forall v :: v != u ==> (v in Attendees(s', k) <==> v in Attendees(s, k));
  }

  /** A successful registration takes one seat and adds the caller to the
      attendees of `ck`; other conferences keep both. */
  lemma RegisterConservesSeats(s: Store, c: Caller, ck: ConfKey, k: ConfKey)
    requires ck in s.conferences && k in s.conferences
    requires Register(s, c, ck).Ok?
    ensures var s' := Register(s, c, ck).value;
      && k in s'.conferences
      && Seats(s', k) + |Attendees(s', k)| == Seats(s, k) + |Attendees(s, k)|
      && (Seats(s, k) >= 0 ==> Seats(s', k) >= 0)
  {
    var s' := Register(s, c, ck).value;
    AttendeesAfterListChange(s, s', c, ck, ProfileOf(s, c).conferenceKeysToAttend + [ck], k);
  }

  /** Unregistering a held conference gives its seat back and removes the
      caller from its attendees; otherwise nothing moves. */
  lemma UnregisterConservesSeats(s: Store, c: Caller, ck: ConfKey, k: ConfKey)
    requires WellFormed(s)
    requires ck in s.conferences && k in s.conferences
    ensures var s' := Unregister(s, c, ck).0;
      && k in s'.conferences
      && Seats(s', k) + |Attendees(s', k)| == Seats(s, k) + |Attendees(s, k)|
      && (Seats(s, k) >= 0 ==> Seats(s', k) >= 0)
  {
    var s' := Unregister(s, c, ck).0;
    var keys := ProfileOf(s, c).conferenceKeysToAttend;
    if ck in keys {
      assert ProfileWellFormed(s, ProfileOf(s, c));
      RemoveFirstNoDuplicates(keys, ck);
      AttendeesAfterListChange(s, s', c, ck, RemoveFirst(keys, ck), k);
    } else {
      AttendeesAfterListChange(s, s', c, ck, keys, k);
    }
  }

  /** Seats plus registered profiles is the same before and after every
      successful registration request, for every conference; and seats that
      were not negative do not become negative. */
  lemma RegistrationConservesSeats(s: Store, caller: Option<Caller>, ck: ConfKey, reg: bool, k: ConfKey)
    requires WellFormed(s)
    requires ConferenceRegistration(s, caller, ck, reg).Ok?
    requires k in s.conferences
    ensures var s' := ConferenceRegistration(s, caller, ck, reg).value.0;
      && k in s'.conferences
      && Seats(s', k) + |Attendees(s', k)| == Seats(s, k) + |Attendees(s, k)|
      && (Seats(s, k) >= 0 ==> Seats(s', k) >= 0)
  {
    if reg {
      RegisterConservesSeats(s, caller.value, ck, k);
    } else {
      UnregisterConservesSeats(s, caller.value, ck, k);
    }
  }

  /** The store a successful registration leaves. */
  lemma RegisterStore(s: Store, c: Caller, ck: ConfKey)
    requires ck in s.conferences
    requires Register(s, c, ck).Ok?
    ensures var prof := ProfileOf(s, c);
      var conf := s.conferences[ck];
      Register(s, c, ck).value
        == PutBoth(s, c.userId, prof.(conferenceKeysToAttend := prof.conferenceKeysToAttend + [ck]),
                   ck, conf.(seatsAvailable := conf.seatsAvailable - 1))
  {
  }

  /** The store unregistering a held conference leaves. */
  lemma UnregisterStore(s: Store, c: Caller, ck: ConfKey)
    requires ck in s.conferences
    requires ck in ProfileOf(s, c).conferenceKeysToAttend
    ensures var prof := ProfileOf(s, c);
      var conf := s.conferences[ck];
      Unregister(s, c, ck)
        == (PutBoth(s, c.userId, prof.(conferenceKeysToAttend := RemoveFirst(prof.conferenceKeysToAttend, ck)),
                    ck, conf.(seatsAvailable := conf.seatsAvailable + 1)), true)
  {
  }

  /** Registering and then unregistering the same conference gives back the
      store as it was, apart from the profile a first-time caller receives. */
  lemma RegisterThenUnregister(s: Store, c: Caller, ck: ConfKey)
    requires ck in s.conferences
    requires Register(s, c, ck).Ok?
    ensures Unregister(Register(s, c, ck).value, c, ck) == (EnsureProfile(s, c), true)
  {
    var u := c.userId;
    var prof := ProfileOf(s, c);
    var conf := s.conferences[ck];
    var prof1 := prof.(conferenceKeysToAttend := prof.conferenceKeysToAttend + [ck]);
    var conf1 := conf.(seatsAvailable := conf.seatsAvailable - 1);
    var s1 := PutBoth(s, u, prof1, ck, conf1);
    RegisterStore(s, c, ck);
    assert ProfileOf(s1, c) == prof1;
    assert prof1.(conferenceKeysToAttend := RemoveFirst(prof1.conferenceKeysToAttend, ck)) == prof by {
      RemoveFirstOfAppended(prof.conferenceKeysToAttend, ck);
    }
    UnregisterStore(s1, c, ck);
    assert PutBoth(s1, u, prof, ck, conf) == EnsureProfile(s, c) by {
      assert s.conferences[ck := conf1][ck := conf] == s.conferences;
      assert s.profiles[u := prof1][u := prof] == EnsureProfile(s, c).profiles;
    }
  }

  /** A register or unregister request as it arrives, one per transaction. */
  datatype Request = Request(caller: Option<Caller>, ck: ConfKey, reg: bool)

  /** The store after a series of requests; a failed request rolls back. */
  function Run(s: Store, requests: seq<Request>): Store
    decreases |requests|
  {
    if |requests| == 0 then s
    else
      var q := requests[0];
      var r := ConferenceRegistration(s, q.caller, q.ck, q.reg);
      Run(if r.Ok? then r.value.0 else s, requests[1..])
  }

  /** Over any series of requests no conference is oversold: seats plus
      registered profiles stays what it was, seats stay non-negative, so the
      number of registered profiles never exceeds that starting total. */
  lemma {:induction false} RunConservesSeats(s: Store, requests: seq<Request>, k: ConfKey)
    requires WellFormed(s)
    requires k in s.conferences
    requires Seats(s, k) >= 0
    ensures var s' := Run(s, requests);
      && WellFormed(s')
      && k in s'.conferences
      && Seats(s', k) + |Attendees(s', k)| == Seats(s, k) + |Attendees(s, k)|
      && Seats(s', k) >= 0
      && |Attendees(s', k)| <= Seats(s, k) + |Attendees(s, k)|
    decreases |requests|
  {
    if |requests| > 0 {
      var q := requests[0];
      var r := ConferenceRegistration(s, q.caller, q.ck, q.reg);
      if r.Ok? {
        RegistrationWellFormed(s, q.caller, q.ck, q.reg);
        RegistrationConservesSeats(s, q.caller, q.ck, q.reg, k);
        RunConservesSeats(r.value.0, requests[1..], k);
      } else {
        RunConservesSeats(s, requests[1..], k);
      }
    }
  }
}

=== FILE: seqs.dfy ===
/** Sequence operations the model needs from Python's list and str. */
module Seqs {

  /** No element occurs twice. */
  predicate NoDuplicates<T(==)>(xs: seq<T>) {
    forall i, j :: 0 <= i < j < |xs| ==> xs[i] != xs[j]
  }

  /** Python's `list.index(x)`: the position of the first occurrence. */
  function IndexOf<T(==)>(xs: seq<T>, x: T): (i: nat)
    requires x in xs
    ensures i < |xs| && xs[i] == x && x !in xs[..i]
  {
    if xs[0] == x then 0
    else
      var j := IndexOf(xs[1..], x);
      assert xs[..j + 1] == [xs[0]] + xs[1..][..j];
      j + 1
  }

  /** Python's `list.remove(x)`: drops the first occurrence of `x`. The code
      only calls it after checking membership, so `x in xs` is required. */
  function RemoveFirst<T(==)>(xs: seq<T>, x: T): (r: seq<T>)
    requires x in xs
    ensures |r| == |xs| - 1
  {
    var i := IndexOf(xs, x);
    xs[..i] + xs[i + 1..]
  }

  /** `list.remove` drops exactly one copy of `x` and keeps every other element. */
  lemma RemoveFirstContents<T>(xs: seq<T>, x: T)
    requires x in xs
    ensures multiset(RemoveFirst(xs, x)) == multiset(xs) - multiset{x}
  {
    var i := IndexOf(xs, x);
    calc {
      multiset(xs);
      { assert xs == xs[..i] + [x] + xs[i + 1..]; }
      multiset(xs[..i]) + multiset{x} + multiset(xs[i + 1..]);
    }
  }

  /** The elements before the first `x` keep their places and the ones after
      it move up by one. */
  lemma RemoveFirstPositions<T>(xs: seq<T>, x: T)
    requires x in xs
    ensures var r := RemoveFirst(xs, x);
      forall k :: 0 <= k < |r| ==> r[k] == (if k < IndexOf(xs, x) then xs[k] else xs[k + 1])
  {
  }

  /** Removing an element that was appended to a list not holding it gives the
      list back: the first occurrence is the appended one. */
  lemma RemoveFirstOfAppended<T>(xs: seq<T>, x: T)
    requires x !in xs
    ensures RemoveFirst(xs + [x], x) == xs
  {
    assert IndexOf(xs + [x], x) == |xs| by {
      assert forall k :: 0 <= k < |xs| ==> (xs + [x])[k] == xs[k];
    }
    assert (xs + [x])[..|xs|] == xs;
  }

  /** On a list without duplicates, removal deletes exactly `x` and keeps the
      list free of duplicates. */
  lemma RemoveFirstNoDuplicates<T>(xs: seq<T>, x: T)
    requires x in xs
    requires NoDuplicates(xs)
    ensures NoDuplicates(RemoveFirst(xs, x))
    ensures forall y :: y in RemoveFirst(xs, x) <==> y in xs && y != x
  {
    var i := IndexOf(xs, x);
    var r := RemoveFirst(xs, x);
    assert forall k :: 0 <= k < |r| ==> r[k] == if k < i then xs[k] else xs[k + 1];
    forall y
      ensures y in r <==> y in xs && y != x
    {
      if y in xs && y != x {
        var k :| 0 <= k < |xs| && xs[k] == y;
        assert k != i;
        assert r[if k < i then k else k - 1] == y;
      }
    }
  }

  /** Python's `sep.join(parts)`. */
  function Join(sep: string, parts: seq<string>): (r: string)
    ensures |parts| == 0 ==> r == ""
    ensures |parts| == 1 ==> r == parts[0]
    ensures |parts| > 0 ==> |r| >= |parts[0]| && r[..|parts[0]|] == parts[0]
  {
    if |parts| == 0 then ""
    else if |parts| == 1 then parts[0]
    else parts[0] + sep + Join(sep, parts[1..])
  }

  /** Joining one more part puts the separator and that part at the end. */
  lemma {:induction false} JoinAppend(sep: string, parts: seq<string>, p: string)
    requires |parts| > 0
    ensures Join(sep, parts + [p]) == Join(sep, parts) + sep + p
    decreases |parts|
  {
    if |parts| == 1 {
      assert (parts + [p])[1..] == [p];
    } else {
      assert (parts + [p])[1..] == parts[1..] + [p];
      JoinAppend(sep, parts[1..], p);
    }
  }

  /** `part` is found in `s` starting at index `i`. */
  predicate OccursAt(part: string, s: string, i: int) {
    0 <= i <= |s| - |part| && s[i..i + |part|] == part
  }

  /** `part` occurs as a contiguous piece of `s`. */
  ghost predicate Occurs(part: string, s: string) {
    exists i :: OccursAt(part, s, i)
  }

  /** A piece found in `s` is still found after something is put before it. */
  lemma OccursAfterPrefix(part: string, prefix: string, s: string)
    requires Occurs(part, s)
    ensures Occurs(part, prefix + s)
  {
    var i :| OccursAt(part, s, i);
    assert (prefix + s)[|prefix| + i..|prefix| + i + |part|] == s[i..i + |part|];
    assert OccursAt(part, prefix + s, |prefix| + i);
  }

  /** Every joined part can be found in the joined string. */
  lemma {:induction false} JoinContainsParts(sep: string, parts: seq<string>, k: nat)
    requires k < |parts|
    ensures Occurs(parts[k], Join(sep, parts))
  {
    var j := Join(sep, parts);
    if k == 0 {
      if |parts| > 1 {
        assert j == parts[0] + (sep + Join(sep, parts[1..]));
      }
      assert OccursAt(parts[0], j, 0);
    } else {
      JoinContainsParts(sep, parts[1..], k - 1);
      var rest := Join(sep, parts[1..]);
      assert parts[1..][k - 1] == parts[k];
      OccursAfterPrefix(parts[k], parts[0] + sep, rest);
    }
  }
}

=== FILE: wishlist.dfy ===
/** Adding sessions to and removing them from the caller's wishlist.

    Unlike registration, `_wishlistAddition` is not a transaction: the
    profile `_getProfileFromUser` creates for a first-time caller is stored
    before the session is looked up, so it stays even when the request then
    fails. The model therefore returns the store together with the outcome. */
module Wishlist {
  import opened Errors
  import opened Seqs
  import opened Models

  /** `s'` differs from `s` at most in the caller's wishlist, which is `keys'`. */
  ghost predicate OnlyWishlistChanges(s: Store, s': Store, c: Caller, keys': seq<SessionKey>) {
    && s'.profiles == s.profiles[c.userId := ProfileOf(s, c).(sessionWishlistKeys := keys')]
    && s'.conferences == s.conferences
    && s'.sessions == s.sessions
  }

  /** The add branch: refused when the session is already wishlisted,
      otherwise appended once. */
  function AddToWishlist(s: Store, c: Caller, sk: SessionKey): (r: Result<Store>)
    ensures var keys := ProfileOf(s, c).sessionWishlistKeys;
      && (r.Err? <==> sk in keys)
      && (r.Err? ==> r.error == Conflict(AlreadyInWishlist))
      && (r.Ok? ==> OnlyWishlistChanges(s, r.value, c, keys + [sk]))
  {
    var prof := ProfileOf(s, c);
    if sk in prof.sessionWishlistKeys then Err(Conflict(AlreadyInWishlist))
    else Ok(s.(profiles := s.profiles[c.userId := prof.(sessionWishlistKeys := prof.sessionWishlistKeys + [sk])]))
  }

  /** The remove branch: deletes a wishlisted session and answers true, or
      answers false and leaves the wishlist as it was. */
  function RemoveFromWishlist(s: Store, c: Caller, sk: SessionKey): (r: (Store, bool))
    ensures var keys := ProfileOf(s, c).sessionWishlistKeys;
      && (r.1 <==> sk in keys)
      && (r.1 ==> OnlyWishlistChanges(s, r.0, c, RemoveFirst(keys, sk)))
      && (!r.1 ==> r.0 == EnsureProfile(s, c))
  {
    var prof := ProfileOf(s, c);
    if sk in prof.sessionWishlistKeys then
      (s.(profiles := s.profiles[c.userId := prof.(sessionWishlistKeys := RemoveFirst(prof.sessionWishlistKeys, sk))]), true)
    else
      (EnsureProfile(s, c), false)
  }

  /** `_wishlistAddition`: with `reg` it adds session `sk` to the caller's
      wishlist, without it it removes it. */
  function WishlistAddition(s: Store, caller: Option<Caller>, sk: SessionKey, reg: bool): (r: (Store, Result<bool>))
    ensures caller.None? ==> r == (s, Err(Unauthorized))
    ensures caller.Some? && sk !in s.sessions ==> r == (EnsureProfile(s, caller.value), Err(NotFound))
    ensures caller.Some? && sk in s.sessions && reg ==>
      (r.1 == Err(Conflict(AlreadyInWishlist)) <==> sk in ProfileOf(s, caller.value).sessionWishlistKeys)
    ensures r.1.Err? && caller.Some? ==> r.0 == EnsureProfile(s, caller.value)
    ensures r.1.Ok? ==> caller.Some? && sk in s.sessions && (reg ==> r.1.value)
    ensures r.1.Err? ==> r.1.error in {Unauthorized, NotFound, Conflict(AlreadyInWishlist)}
    // a request on a stored session is exactly its add or remove step
    ensures caller.Some? && sk in s.sessions && reg ==>
      var step := AddToWishlist(s, caller.value, sk);
      && (r.1.Ok? <==> step.Ok?)
      && (r.1.Ok? ==> r.0 == step.value)
    ensures caller.Some? && sk in s.sessions && !reg ==>
      var (s', removed) := RemoveFromWishlist(s, caller.value, sk);
      r == (s', Ok(removed))
  {
    if caller.None? then (s, Err(Unauthorized))
    else
      var c := caller.value;
      if sk !in s.sessions then (EnsureProfile(s, c), Err(NotFound))
      else if reg then
        match AddToWishlist(s, c, sk)
        case Ok(s') => (s', Ok(true))
        case Err(e) => (EnsureProfile(s, c), Err(e))
      else
        var (s', removed) := RemoveFromWishlist(s, c, sk);
        (s', Ok(removed))
  }

  /** A successful wishlist request keeps the store well formed. */
  lemma WishlistWellFormed(s: Store, caller: Option<Caller>, sk: SessionKey, reg: bool)
    requires WellFormed(s)
    ensures WellFormed(WishlistAddition(s, caller, sk, reg).0)
  {
    if caller.Some? {
      var c := caller.value;
      var s' := WishlistAddition(s, caller, sk, reg).0;
      var keys := ProfileOf(s, c).sessionWishlistKeys;
      assert ProfileWellFormed(s, ProfileOf(s, c));
      if sk in s.sessions && reg && sk !in keys {
        assert NoDuplicates(keys + [sk]);
      } else if sk in s.sessions && !reg && sk in keys {
        RemoveFirstNoDuplicates(keys, sk);
      }
      forall v | v in s'.profiles
        ensures ProfileWellFormed(s', s'.profiles[v])
      {
        if v != c.userId {
          assert ProfileWellFormed(s, s.profiles[v]);
        }
      }
    }
  }

  /** Adding a session and then removing it gives back the store as it was,
      apart from the profile a first-time caller receives. */
  lemma AddThenRemove(s: Store, c: Caller, sk: SessionKey)
    requires AddToWishlist(s, c, sk).Ok?
    ensures RemoveFromWishlist(AddToWishlist(s, c, sk).value, c, sk) == (EnsureProfile(s, c), true)
  {
    var u := c.userId;
    var prof := ProfileOf(s, c);
    var prof1 := prof.(sessionWishlistKeys := prof.sessionWishlistKeys + [sk]);
    var s1 := s.(profiles := s.profiles[u := prof1]);
    assert AddToWishlist(s, c, sk) == Ok(s1);
    assert ProfileOf(s1, c) == prof1;
    assert prof1.(sessionWishlistKeys := RemoveFirst(prof1.sessionWishlistKeys, sk)) == prof by {
      RemoveFirstOfAppended(prof.sessionWishlistKeys, sk);
    }
    assert RemoveFromWishlist(s1, c, sk) == (s1.(profiles := s1.profiles[u := prof]), true);
    assert s1.(profiles := s1.profiles[u := prof]) == EnsureProfile(s, c) by {
      assert s.profiles[u := prof1][u := prof] == s.profiles[u := prof];
    }
  }

  /** Add, add again, remove, remove again: true, a conflict, true, false. */
  lemma AddAddRemoveRemove(s: Store, c: Caller, sk: SessionKey)
    requires sk in s.sessions
    requires sk !in ProfileOf(s, c).sessionWishlistKeys
    ensures var (s1, r1) := WishlistAddition(s, Some(c), sk, true);
      var (s2, r2) := WishlistAddition(s1, Some(c), sk, true);
      var (s3, r3) := WishlistAddition(s2, Some(c), sk, false);
      var (s4, r4) := WishlistAddition(s3, Some(c), sk, false);
      && r1 == Ok(true) && r2 == Err(Conflict(AlreadyInWishlist)) && r3 == Ok(true) && r4 == Ok(false)
      && s4 == EnsureProfile(s, c)
  {
    var s1 := WishlistAddition(s, Some(c), sk, true).0;
    assert s1 == AddToWishlist(s, c, sk).value;
    assert c.userId in s1.profiles;
    assert EnsureProfile(s1, c) == s1;
    AddThenRemove(s, c, sk);
    var s3 := EnsureProfile(s, c);
    assert ProfileOf(s3, c) == ProfileOf(s, c);
    assert EnsureProfile(s3, c) == s3;
  }
}
